=== FILE: README.md ===
# Blood donor administration client: a Dafny model

The system is a web client for tracking blood donors. A remote donor service stores each donor's contact details, blood group and status: active, appointed, temporarily rejected or permanently rejected. The client only decides what to show and which requests to send. This project models that client-side logic as pure functions and proves properties of it:

- the four-variant donor status and the eight blood groups (`Backend`);
- the post-call dialog. It turns the recorded call outcome into one of three results: close with no request, a validation message, or one status-update request (`PostCall`);
- the add-donor and edit-donor dialogs. Each has its validation, the request it builds, and what happens to its fields after the service replies (`AddDonor`, `EditDonor`);
- the donor lists. These are the full table, the appointed list, the temporarily-rejected list with its "Donated" heuristic, and the blood-requirement search page with its count badge (`DonorTable`, `Appointed`, `TempRejected`, `BloodRequirement`);
- shared pieces. These are the blood-group labels (`Labels`), the loading, empty and rows precedence every list follows (`ListViews`), the nanosecond/millisecond conversions and whole-day rounding (`Timestamps`), and JavaScript's `trim` and decimal rendering (`JsText`).

Timestamps on the wire are integer nanoseconds. The forms send `ms * 1_000_000`, and the lists show `ns / 1_000_000` truncated to an integer, because a JavaScript `Date` keeps only the integer part. The current time, the parsed value of a date field (`millisOf`) and the lists the queries fetched are all parameters.

The `Donor` record has no call count and no last-called date, and no list is sorted on the client: every list renders in the order the service returns.

## Model

| member | source | states |
|---|---|---|
| Backend.GroupOf | src/frontend/src/backend.d.ts:36-45 | for every ABO group and Rhesus sign there is a blood group with exactly that group and sign |
| Backend.GroupIsAboTimesRh | src/frontend/src/backend.d.ts:36-45 | a blood group is determined by its ABO group and sign, so the eight groups are exactly four ABO groups times two signs |
| Backend.Code | src/frontend/src/backend.d.ts:36-45 | each group travels as its ABO group followed by `_pos` or `_neg` |
| Backend.ParseCode | src/frontend/src/backend.d.ts:36-45 | a string is recognised as a group exactly when it is that group's code; other strings name no group |
| Backend.CodeRoundTrip | src/frontend/src/backend.d.ts:36-45 | every code parses back to its group, and two groups share a code only if they are the same group |
| Backend.DeclaredGroupsListEachOnce | src/frontend/src/components/EditDonorDialog.tsx:116-120 | enumerating the groups for the edit select lists all eight, each exactly once |
| Backend.Tag | src/frontend/src/backend.d.ts:10-27 | `__kind__` is "active", "permanentlyRejected", "appointed" or "temporarilyRejected", each exactly for its own variant |
| Backend.TagIdentifiesVariant | src/frontend/src/backend.d.ts:10-27 | two statuses carry the same `__kind__` exactly when they are the same one of the four variants |
| Timestamps.NanosToMillis | src/frontend/src/components/TempRejectedDonorsList.tsx:23-26 | a nanosecond timestamp shows as the millisecond instant it falls in, rounding toward zero (`new Date(Number(ns) / 1_000_000)`) |
| Timestamps.MillisToNanos | src/frontend/src/components/PostCallForm.tsx:48 | the submitted timestamp holds a whole number of milliseconds and is shown again as exactly the instant entered |
| Timestamps.EncodeAfterDisplay | src/frontend/src/components/AppointedDonorsList.tsx:24 | display followed by re-encoding gives back exactly the timestamps with a whole number of milliseconds |
| Timestamps.CeilDiv | src/frontend/src/components/TempRejectedDonorsList.tsx:32 | `Math.ceil(n / d)` is the least q with n <= q*d |
| Timestamps.DaysUntil | src/frontend/src/components/TempRejectedDonorsList.tsx:30-32 | the day difference is the whole number of days, rounded up, from now to the date |
| JsText.Trim | src/frontend/src/components/EditDonorDialog.tsx:36-44 | `trim` yields a string with no white space at either end; it is empty exactly when the input is all white space |
| JsText.TrimOfPadded | src/frontend/src/components/EditDonorDialog.tsx:49-51 | trimming white space + m + white space, where m has no white space at either end, gives m |
| JsText.TrimIdempotent | src/frontend/src/components/EditDonorDialog.tsx:49-51 | trimming a trimmed value changes nothing |
| JsText.Decimal | src/frontend/src/components/BloodRequirementForm.tsx:84 | a count renders as decimal digits, with no leading zero |
| JsText.DecimalRoundTrip | src/frontend/src/components/BloodRequirementForm.tsx:84 | reading the rendered digits gives back the count |
| Labels.LabelOf | src/frontend/src/components/DonorTable.tsx:24-36 | each of the eight codes gets its group's label (ABO name then "+" or "-"); any other string is returned unchanged |
| Labels.GroupLabelInjective | src/frontend/src/components/EditDonorDialog.tsx:69-81 | different groups get different labels |
| ListViews.MapRows | src/frontend/src/components/DonorTable.tsx:84 | one row per donor, the i-th row made from the i-th donor |
| ListViews.Render | src/frontend/src/components/BloodRequirementForm.tsx:89-99 | the spinner shows exactly while loading, whatever the data; the empty message exactly when not loading and the list is absent or empty; a table exactly when not loading and the list is non-empty, with one row per donor in received order |
| ListViews.MapRowsAppend | src/frontend/src/components/AppointedDonorsList.tsx:57 | rows are never reordered: the rows of a concatenation are the concatenation of the rows |
| PostCall.Decide | src/frontend/src/components/PostCallForm.tsx:30-120 | notAttend closes with no request whatever the fields. A response missing a required field is refused with its message. Otherwise exactly one request is sent, for the donor's id, with status appointed(date ×1e6, name), temporarilyRejected(date ×1e6) or permanentlyRejected |
| PostCall.OnlyRequiredFieldsMatter | src/frontend/src/components/PostCallForm.tsx:39-103 | two forms that agree on the response, the rejection type (for a rejection) and the fields that response requires have the same outcome; every other field is ignored |
| PostCall.RequestMatchesResponse | src/frontend/src/components/PostCallForm.tsx:45-101 | the request's status variant corresponds one-to-one to the response, is never active, and its dates show again as the entered instants |
| PostCall.Reset | src/frontend/src/components/PostCallForm.tsx:122-128 | resetting gives (approved, temporary, '', '', '') and leaves the open flag alone |
| PostCall.Cancel | src/frontend/src/components/PostCallForm.tsx:247-250 | Cancel closes the dialog and resets the form |
| PostCall.Dismiss | src/frontend/src/components/PostCallForm.tsx:131 | closing through the dialog itself changes only the open flag; the entries stay |
| PostCall.Submit | src/frontend/src/components/PostCallForm.tsx:33-37 | submitting gives the decided outcome; notAttend closes and resets; a refused or in-flight form stays as it is |
| PostCall.Settle | src/frontend/src/components/PostCallForm.tsx:56-65 | a successful reply closes and resets; a failed one leaves the dialog, fields included, unchanged |
| PostCall.RetryAfterFailure | src/frontend/src/components/PostCallForm.tsx:63-65 | after a failed request, submitting again sends the same request |
| PostCall.SuccessLeavesFreshForm | src/frontend/src/components/PostCallForm.tsx:56-62 | after a success, submitting the untouched form is refused with "Please fill in all required fields" |
| AddDonor.Validate | src/frontend/src/components/AddDonorDialog.tsx:24-37 | refused exactly when a field is the empty string; otherwise one request carrying the three values exactly as entered |
| AddDonor.WhitespaceIsAccepted | src/frontend/src/components/AddDonorDialog.tsx:27 | non-empty values made only of white space pass and are sent as typed |
| AddDonor.SelectGroup | src/frontend/src/components/AddDonorDialog.tsx:89 | choosing a group in the select stores a string that parses to that group, leaving name and phone alone |
| AddDonor.SelectedGroupIsSent | src/frontend/src/components/AddDonorDialog.tsx:32-37 | with name and phone filled, the request carries the chosen group's code, so the unchecked cast is sound |
| AddDonor.Settle | src/frontend/src/components/AddDonorDialog.tsx:38-59 | success closes the dialog and empties all three fields; an error leaves the dialog unchanged |
| AddDonor.Cancel | src/frontend/src/components/AddDonorDialog.tsx:125-128 | Cancel closes the dialog and empties all three fields |
| AddDonor.Dismiss | src/frontend/src/components/AddDonorDialog.tsx:62 | closing through the dialog itself changes only the open flag; the entries stay, also across switches between the dashboard and a section, since the page keeps the dialog mounted in the same place in both |
| AddDonor.CancelDiscardsDismissKeeps | src/frontend/src/components/AddDonorDialog.tsx:55-62 | after Cancel the next submission is refused; after a dismissal it is what it would have been before |
| AddDonor.SettleThenResubmit | src/frontend/src/components/AddDonorDialog.tsx:39-50 | after an error the same request can be resubmitted; after a success the emptied form is refused |
| EditDonor.FormOf | src/frontend/src/components/EditDonorDialog.tsx:19-21 | the initial fields are the donor's name, group and phone |
| EditDonor.Reload | src/frontend/src/components/EditDonorDialog.tsx:25-31 | when open, the dialog reloads all three fields from the donor; when closed it keeps its own |
| EditDonor.Validate | src/frontend/src/components/EditDonorDialog.tsx:33-52 | refused exactly when name or phone is all white space; a blank name is reported first, with one message. Otherwise the request has the donor's id, the selected group, and a non-empty trimmed name and phone |
| EditDonor.SendsTextBetweenPadding | src/frontend/src/components/EditDonorDialog.tsx:46-52 | padded input reaches the request as the text between the padding |
| EditDonor.ReopenAndSaveIsNoChange | src/frontend/src/components/EditDonorDialog.tsx:25-52 | reopening a donor with trimmed, non-empty values and saving at once sends those values back unchanged |
| EditDonor.Settle | src/frontend/src/components/EditDonorDialog.tsx:53-65 | success closes the dialog without touching the fields; an error leaves it as it was |
| TempRejected.AvailableDateOf | src/frontend/src/components/TempRejectedDonorsList.tsx:67-70 | the available date is the temporarilyRejected payload, and 0 for any other status |
| TempRejected.IsDonated | src/frontend/src/components/TempRejectedDonorsList.tsx:28-35 | the ceiling day count is in [85, 95] exactly when the date is more than 84 and at most 95 days after now |
| TempRejected.PastIsNeverDonated | src/frontend/src/components/TempRejectedDonorsList.tsx:67-71 | a date not after now is never "Donated", and neither is the 0 fallback for a time after the epoch |
| TempRejected.RowOf | src/frontend/src/components/TempRejectedDonorsList.tsx:66-91 | a row shows the label, the date in milliseconds and exactly one badge, "Donated" precisely when the heuristic holds |
| TempRejected.View | src/frontend/src/components/TempRejectedDonorsList.tsx:37-51 | spinner exactly while loading; empty message exactly for an absent or empty list when loaded; a loaded non-empty list is always a table with one row per donor in received order |
| TempRejected.TemporaryRejectionRow | src/frontend/src/components/TempRejectedDonorsList.tsx:82-88 | a temporary rejection recorded in the post-call form is listed with the instant the entered date parsed to, and its badge follows the window measured from that instant |
| Appointed.RowOf | src/frontend/src/components/AppointedDonorsList.tsx:57-72 | date and patient cells are filled exactly for an appointed status, with the payload's date in milliseconds and the patient name |
| Appointed.View | src/frontend/src/components/AppointedDonorsList.tsx:28-42 | spinner exactly while loading; empty message exactly for an absent or empty list when loaded; a loaded non-empty list is always a table with one row per donor in received order |
| Appointed.ApprovalShownAsEntered | src/frontend/src/components/AppointedDonorsList.tsx:66-71 | an approval recorded in the post-call form is listed with the instant the entered date parsed to and the patient name as typed |
| DonorTable.StatusBadge | src/frontend/src/components/DonorTable.tsx:38-52 | each variant gets its own badge: "Active" exactly for active, "Appointed" exactly for appointed, "Temp. Rejected" exactly for temporarily rejected, "Perm. Rejected" exactly for permanently rejected |
| DonorTable.StatusBadgeIdentifiesVariant | src/frontend/src/components/DonorTable.tsx:38-52 | two statuses show the same badge exactly when they are the same variant, so the four badges are distinct |
| DonorTable.RowOf | src/frontend/src/components/DonorTable.tsx:84-105 | a row shows the donor's name, group label, phone and status badge |
| DonorTable.View | src/frontend/src/components/DonorTable.tsx:54-68 | the loading check comes before the empty check; a loaded non-empty list is always a table with one row per donor in received order |
| DonorTable.HandleCall | src/frontend/src/components/DonorTable.tsx:15-22 | calling selects the donor and opens the post-call dialog; the first call mounts it with the initial fields (DonorTable.tsx:110-116), and later calls keep the fields it holds |
| DonorTable.FirstCallOpensFreshForm | src/frontend/src/components/PostCallForm.tsx:22-26 | on the first call the form holds its initial values, so submitting it at once is refused and sends nothing |
| DonorTable.CallThenSubmitTargetsCalledDonor | src/frontend/src/components/DonorTable.tsx:110-116 | any request the dialog sends after a call is for the donor just called |
| DonorTable.EntriesCarryOverToNextDonor | src/frontend/src/components/DonorTable.tsx:110-116 | whatever was entered for one donor, left in a dialog closed without Cancel or a completed submission, is submitted for the next donor called |
| BloodRequirement.FilterArgument | src/frontend/src/components/BloodRequirementForm.tsx:18-20 | the filter argument is absent exactly for '' and 'any', and is otherwise the selected value |
| BloodRequirement.Chosen | src/frontend/src/components/BloodRequirementForm.tsx:24-25 | 'any' takes the all-donors list and its loading flag; anything else takes the filtered list and its flag |
| BloodRequirement.SelectionDecidesQuery | src/frontend/src/components/BloodRequirementForm.tsx:18-25 | choosing a group filters by exactly that group and shows the filtered list; 'any' applies no filter and shows all donors |
| BloodRequirement.CountLabel | src/frontend/src/components/BloodRequirementForm.tsx:84 | the badge is the count's digits, which read back as the count, followed by " donor found" for one and " donors found" for any other count |
| BloodRequirement.RowOf | src/frontend/src/components/BloodRequirementForm.tsx:111-131 | a result row shows the donor's name, group label and phone |
| BloodRequirement.Results | src/frontend/src/components/BloodRequirementForm.tsx:78-99 | there is no section for ''. Otherwise the count badge appears whenever the chosen list is defined, even while loading or empty, above the chosen list's view: spinner exactly while it loads, empty message exactly when loaded and absent or empty, and a table of its rows in order exactly when loaded and non-empty |
| BloodRequirement.CallFromResults | src/frontend/src/components/BloodRequirementForm.tsx:27-34 | calling from a result row selects the donor behind that row and opens the post-call dialog |

## Left out

- Rendering, styling, toasts and the `tel:` navigation that starts a phone call are browser side effects. The model keeps only the values they show.
- Date parsing (`new Date(str)`), `toLocaleDateString` and the wall clock. Parsed dates are the parameter `millisOf`, and the current time is the parameter `nowMs`. A date input yields either '' or a valid date, so the path where an unparseable string makes `BigInt(NaN)` throw is not modelled.
- Floating-point arithmetic. `getTime() * 1_000_000`, `Number(ns) / 1_000_000` and `Math.ceil` on doubles are modelled as exact integer multiplication, truncating division and ceiling division. These agree with the doubles for whole-day dates at realistic magnitudes, but not for arbitrary integers.
- The data-fetching layer (react-query hooks over the service actor) and its cache invalidation after a mutation. The lists and loading flags the queries produce are parameters. A reply is either ok or an error, and a network failure counts as an error, as it does in the UI.
- The edit call and the delete call. Their hooks are imported but not defined in the hooks file, and the service interface has no such operations. The edit dialog is modelled up to the request it builds and its reply handling. The delete-confirmation dialog only calls that hook, so it is not modelled.
- The permanently-rejected list. It only renders, and its one function is the label table already modelled in `Labels`.
- Navigation between the home page's sections, and the login gate. These are UI and authentication.
- Labels.LabelOf: a table lookup in JavaScript also finds keys inherited from `Object.prototype` (for example "toString"). The model treats such strings as unknown and returns them unchanged. `getBloodGroupLabel` is only ever called with a donor's `bloodGroup`, which is one of the eight codes.
- JsText.Trim: it works on Unicode scalar values, not UTF-16 code units. Every white-space character `trim` removes is in the Basic Multilingual Plane, so the two readings agree.
- PostCall.Decide, PostCall.SuccessLeavesFreshForm, AddDonor.Validate and AddDonor.SettleThenResubmit: the browser's own check of `required` inputs is not modelled. The date and patient-name inputs of the post-call form and the name and phone inputs of the add-donor form are `required`, and neither form sets `noValidate`. So the browser blocks a submission with one of those fields empty before `handleSubmit` runs. The refusal messages "Please fill in all required fields" and "Please select an available date" are then never shown, and "Please fill in all fields" is shown only for an empty blood group. In every such case no request is sent, which is what the contracts state. The message is just not what the user sees.
- Appointed.ApprovalShownAsEntered and TempRejected.TemporaryRejectionRow: they state that the listed instant is the one the entered date parsed to, not that the same calendar day is shown. A `type="date"` value parses as midnight UTC, and the lists format it with the local-time `toLocaleDateString`. West of UTC that shows the previous day.
- TempRejected.IsDonated: the source reads the clock again for every row (`new Date()` inside `isDonatedStatus`). The model uses one `nowMs` for the whole list. Rows rendered a few milliseconds apart can differ only when a date sits on a window boundary.
- Nothing is modelled while a request is in flight. The model treats each submission and its reply as two separate steps, and it does not model edits made in between.

=== FILE: adddonor.dfy ===
/** The add-donor dialog (`AddDonorDialog`): three text fields, checked only
    for being non-empty (no trimming), sent unchanged to `addDonor`. The
    blood-group field is the code chosen in the select, or empty; it is
    passed on with an unchecked cast, so the request carries the string. */
module AddDonor {
  import opened Backend
  import opened Forms
  import opened JsText

  datatype AddForm = AddForm(name: string, bloodGroup: string, phoneNumber: string)

  const EmptyForm: AddForm := AddForm("", "", "")

  /** The arguments of `addDonor`. */
  datatype AddRequest = AddRequest(name: string, bloodGroup: string, phoneNumber: string)

  const MissingFieldsMessage: string := "Please fill in all fields"

  /** `handleSubmit`: refused exactly when some field is the empty string;
      otherwise one request with the three values exactly as entered. */
  function Validate(f: AddForm): (o: Outcome<AddRequest>)
    ensures !o.Close?
    ensures o.Invalid? <==> f.name == [] || f.bloodGroup == [] || f.phoneNumber == []
    ensures o.Invalid? ==> o.message == MissingFieldsMessage
    ensures o.Send? ==> o.request.name == f.name && o.request.bloodGroup == f.bloodGroup
    ensures o.Send? ==> o.request.phoneNumber == f.phoneNumber
  {
    if f.name == "" || f.bloodGroup == "" || f.phoneNumber == "" then
      Invalid(MissingFieldsMessage)
    else
      Send(AddRequest(f.name, f.bloodGroup, f.phoneNumber))
  }

  /** Values made only of white space are not refused: the check looks at the
      raw strings, so such a donor is sent as typed. */
  lemma WhitespaceIsAccepted(name: string, g: BloodGroup, phone: string)
    requires name != [] && phone != []
    requires AllWhitespace(name) && AllWhitespace(phone)
    ensures Validate(AddForm(name, Code(g), phone)) == Send(AddRequest(name, Code(g), phone))
  {
  }

  /** Choosing a group in the select stores its code. */
  function SelectGroup(f: AddForm, g: BloodGroup): (r: AddForm)
    ensures ParseCode(r.bloodGroup) == Some(g)
    ensures r.name == f.name && r.phoneNumber == f.phoneNumber
  {
    CodeRoundTrip(g, g);
    f.(bloodGroup := Code(g))
  }

  /** A group chosen in the select reaches the service as that group: the
      unchecked cast is sound for every value the select can produce. */
  lemma SelectedGroupIsSent(f: AddForm, g: BloodGroup)
    requires f.name != [] && f.phoneNumber != []
    ensures var o := Validate(SelectGroup(f, g));
      o.Send? && ParseCode(o.request.bloodGroup) == Some(g)
  {
  }

  /** The dialog: whether it is open, and the form it holds. */
  datatype Dialog = Dialog(open: bool, form: AddForm)

  /** The reply to `addDonor` (the new donor's identifier, or an error):
      success closes the dialog and empties all three fields; an error keeps
      it open with every field as it was. */
  function Settle(d: Dialog, reply: Reply<int>): (r: Dialog)
    ensures reply.Ok? ==> !r.open && r.form.name == [] && r.form.bloodGroup == [] && r.form.phoneNumber == []
    ensures reply.Error? ==> r == d
  {
    match reply
    case Ok(_) => Dialog(false, EmptyForm)
    case Error(_) => d
  }

  /** The Cancel button: closes the dialog and empties all three fields. */
  function Cancel(d: Dialog): (r: Dialog)
    ensures !r.open
    ensures r.form.name == [] && r.form.bloodGroup == [] && r.form.phoneNumber == []
  {
    Dialog(false, EmptyForm)
  }

  /** Closing through the dialog's own close control: only the open flag
      changes, so the entries are still there when the dialog is reopened. */
  function Dismiss(d: Dialog): (r: Dialog)
    ensures !r.open && r.form == d.form
  {
    d.(open := false)
  }

  /** Cancel discards the entries, so the next submission is refused until
      the form is filled in again; a dismissed dialog submits, once reopened,
      exactly what it would have submitted before. */
  lemma CancelDiscardsDismissKeeps(d: Dialog)
    ensures Validate(Cancel(d).form) == Invalid(MissingFieldsMessage)
    ensures Validate(Dismiss(d).form) == Validate(d.form)
  {
  }

  /** After a failure the same donor can be submitted again unchanged; after
      a success the emptied form is refused until it is filled in again. */
  lemma SettleThenResubmit(d: Dialog, id: int, err: string)
    ensures Validate(Settle(d, Error(err)).form) == Validate(d.form)
    ensures Validate(Settle(d, Ok(id)).form) == Invalid(MissingFieldsMessage)
  {
  }
}

=== FILE: appointed.dfy ===
/** The appointed-donor list (`AppointedDonorsList`): one row per donor in
    the order received; the appointment date (in milliseconds) and the
    patient name are shown only for an `appointed` status, and the cells are
    empty otherwise. */
module Appointed {
  import opened Backend
  import opened Timestamps
  import opened Labels
  import ListViews
  import PostCall

  /** A row; an empty cell is `None`. */
  datatype Row = Row(
    name: string,
    groupLabel: string,
    phoneNumber: string,
    appointmentMillis: Option<int>,
    patientName: Option<string>)

  function RowOf(d: Donor): (r: Row)
    ensures r.name == d.name && r.groupLabel == GroupLabel(d.bloodGroup) && r.phoneNumber == d.phoneNumber
    ensures r.appointmentMillis.Some? <==> d.status.Appointed?
    ensures r.patientName.Some? <==> d.status.Appointed?
    ensures d.status.Appointed? ==>
      r.appointmentMillis == Some(NanosToMillis(d.status.appointmentDate))
      && r.patientName == Some(d.status.patientName)
  {
    var shown := LabelOf(Code(d.bloodGroup));
    match d.status
    case Appointed(date, patient) => Row(d.name, shown, d.phoneNumber, Some(NanosToMillis(date)), Some(patient))
    case _ => Row(d.name, shown, d.phoneNumber, None, None)
  }

  /** The list as shown: loading first, then the empty message for an absent
      or empty list, otherwise one row per donor in the order received. */
  function View(isLoading: bool, data: Option<seq<Donor>>): (v: ListViews.View<Row>)
    ensures v.Spinner? <==> isLoading
    ensures v.EmptyMessage? <==> !isLoading && (data.None? || data.value == [])
    ensures v.Table? <==> !isLoading && data.Some? && data.value != []
    ensures v.Table? ==> |v.rows| == |data.value|
    ensures v.Table? ==> forall i :: 0 <= i < |v.rows| ==> v.rows[i] == RowOf(data.value[i])
  {
    ListViews.Render(isLoading, data, RowOf)
  }

  /** An approval recorded in the post-call form is listed with the instant
      the entered date parsed to (the nanosecond encoding is undone on
      display) and the patient name exactly as typed. Which calendar day that
      instant is shown as depends on the viewer's time zone. */
  lemma ApprovalShownAsEntered(donor: Donor, f: PostCall.Form, millisOf: string -> int)
    requires f.response == PostCall.Approved
    requires f.appointmentDate != [] && f.patientName != []
    ensures var o := PostCall.Decide(donor, f, millisOf);
      && o.Send?
      && var r := RowOf(donor.(status := o.request.newStatus));
      && r.appointmentMillis == Some(millisOf(f.appointmentDate))
      && r.patientName == Some(f.patientName)
  {
  }
}

=== FILE: backend.dfy ===
/** The donor service's interface types as the client sees them: the optional
    value, the blood-group enumeration, the donor status variant, the donor
    record and the ok/error reply every mutating call returns.
    Timestamps (`Time`) are integer nanoseconds since the epoch. */
module Backend {

  /** `Option<T>`: a value tagged `Some`, or `None`. Besides the service's
      tagged optional, it also stands for a JavaScript value that may be
      absent: a query's `undefined` data, or the filter's `null`. */
  datatype Option<+T> = None | Some(value: T)

  /** `Time`: nanoseconds since the epoch, an unbounded integer (`bigint`). */
  type Time = int

  /** ABO group. */
  datatype Abo = A | B | AB | O

  /** Rhesus sign. */
  datatype Rh = Pos | Neg

  /** The eight blood-group codes, in the order the enumeration declares them. */
  datatype BloodGroup = ABNeg | ABPos | BNeg | BPos | ANeg | APos | ONeg | OPos

  function AboOf(g: BloodGroup): Abo {
    match g
    case ABNeg | ABPos => AB
    case BNeg | BPos => B
    case ANeg | APos => A
    case ONeg | OPos => O
  }

  function RhOf(g: BloodGroup): Rh {
    match g
    case ABPos | BPos | APos | OPos => Pos
    case ABNeg | BNeg | ANeg | ONeg => Neg
  }

  /** The blood group with a given ABO group and Rhesus sign: every pair names
      exactly one of the eight groups. */
  function GroupOf(abo: Abo, rh: Rh): (g: BloodGroup)
    ensures AboOf(g) == abo && RhOf(g) == rh
  {
    match (abo, rh)
    case (A, Pos) => APos
    case (A, Neg) => ANeg
    case (B, Pos) => BPos
    case (B, Neg) => BNeg
    case (AB, Pos) => ABPos
    case (AB, Neg) => ABNeg
    case (O, Pos) => OPos
    case (O, Neg) => ONeg
  }

  /** Each group is determined by its ABO group and Rhesus sign, so the groups
      are exactly the four ABO groups times the two signs. */
  lemma GroupIsAboTimesRh(g: BloodGroup, h: BloodGroup)
    ensures GroupOf(AboOf(g), RhOf(g)) == g
    ensures AboOf(g) == AboOf(h) && RhOf(g) == RhOf(h) ==> g == h
  {
  }

  /** The ABO part of a code. */
  function AboCode(a: Abo): string {
    match a
    case A => "A"
    case B => "B"
    case AB => "AB"
    case O => "O"
  }

  /** The Rhesus part of a code. */
  function RhCode(r: Rh): string {
    if r == Pos then "_pos" else "_neg"
  }

  /** The string a group travels as (the enumeration member's value): its
      ABO group followed by `_pos` or `_neg`. */
  function Code(g: BloodGroup): (c: string)
    ensures c == AboCode(AboOf(g)) + RhCode(RhOf(g))
  {
    match g
    case ABNeg => "AB_neg"
    case ABPos => "AB_pos"
    case BNeg => "B_neg"
    case BPos => "B_pos"
    case ANeg => "A_neg"
    case APos => "A_pos"
    case ONeg => "O_neg"
    case OPos => "O_pos"
  }

  /** The group whose code is `s`, if any. */
  function ParseCode(s: string): (r: Option<BloodGroup>)
    ensures r.Some? ==> Code(r.value) == s
    ensures r.None? ==> forall g :: Code(g) != s
  {
    if s == "AB_neg" then Some(ABNeg)
    else if s == "AB_pos" then Some(ABPos)
    else if s == "B_neg" then Some(BNeg)
    else if s == "B_pos" then Some(BPos)
    else if s == "A_neg" then Some(ANeg)
    else if s == "A_pos" then Some(APos)
    else if s == "O_neg" then Some(ONeg)
    else if s == "O_pos" then Some(OPos)
    else None
  }

  /** Codes round-trip through `ParseCode`, so the eight codes are distinct. */
  lemma CodeRoundTrip(g: BloodGroup, h: BloodGroup)
    ensures ParseCode(Code(g)) == Some(g)
    ensures Code(g) == Code(h) <==> g == h
  {
  }

  /** The members in declaration order, as enumerating the enumeration's
      values yields them. */
  const DeclaredGroups: seq<BloodGroup> := [ABNeg, ABPos, BNeg, BPos, ANeg, APos, ONeg, OPos]

  /** Enumerating the groups lists each of the eight exactly once. */
  lemma DeclaredGroupsListEachOnce(g: BloodGroup)
    ensures |DeclaredGroups| == 8
    ensures g in DeclaredGroups
    ensures forall i, j :: 0 <= i < j < |DeclaredGroups| ==> DeclaredGroups[i] != DeclaredGroups[j]
  {
  }

  /** `DonorStatus`: exactly one of four variants; only `appointed` and
      `temporarilyRejected` carry a payload, the other two carry `null`. */
  datatype DonorStatus =
    | Active
    | PermanentlyRejected
    | Appointed(appointmentDate: Time, patientName: string)
    | TemporarilyRejected(availableDate: Time)

  /** The `__kind__` discriminator of a status. */
  function Tag(s: DonorStatus): (t: string)
    ensures t == "active" <==> s.Active?
    ensures t == "permanentlyRejected" <==> s.PermanentlyRejected?
    ensures t == "appointed" <==> s.Appointed?
    ensures t == "temporarilyRejected" <==> s.TemporarilyRejected?
  {
    match s
    case Active => "active"
    case PermanentlyRejected => "permanentlyRejected"
    case Appointed(_, _) => "appointed"
    case TemporarilyRejected(_) => "temporarilyRejected"
  }

  predicate SameVariant(s: DonorStatus, t: DonorStatus) {
    || (s.Active? && t.Active?)
    || (s.PermanentlyRejected? && t.PermanentlyRejected?)
    || (s.Appointed? && t.Appointed?)
    || (s.TemporarilyRejected? && t.TemporarilyRejected?)
  }

  /** The discriminator identifies the variant: two statuses carry the same
      `__kind__` exactly when they are the same variant. */
  lemma TagIdentifiesVariant(s: DonorStatus, t: DonorStatus)
    ensures Tag(s) == Tag(t) <==> SameVariant(s, t)
  {
  }

  /** A donor record: identifier, status, name, blood group and phone number,
      and nothing else (no call count, no last-called date). */
  datatype Donor = Donor(id: int, status: DonorStatus, name: string, bloodGroup: BloodGroup, phoneNumber: string)

  /** The reply of `addDonor` and `updateDonorStatus`: an ok value or an error
      message, never both. */
  datatype Reply<+T> = Ok(ok: T) | Error(error: string)
}

=== FILE: bloodrequirement.dfy ===
/** The blood-requirement page (`BloodRequirementForm`): a select holding ''
    (nothing chosen), 'any' or one of the eight codes decides which query
    feeds the result section. '' shows no section, 'any' shows all donors,
    and a code shows the donors the service filtered by that group. The two
    queries' results and loading flags are parameters. */
module BloodRequirement {
  import opened Backend
  import opened Labels
  import opened JsText
  import ListViews
  import DonorTable

  const AnySelection: string := "any"

  /** The argument of the filtered query: none for '' and 'any', otherwise
      the selected value itself. */
  function FilterArgument(selection: string): (r: Option<string>)
    ensures r.None? <==> selection == [] || selection == AnySelection
    ensures r.Some? ==> r.value == selection
  {
    if selection != "" && selection != AnySelection then Some(selection) else None
  }

  /** A query's result as the page sees it. */
  datatype Source = Source(data: Option<seq<Donor>>, isLoading: bool)

  /** 'any' takes the all-donors query, list and loading flag together;
      every other selection takes the filtered query. */
  function Chosen(selection: string, all: Source, filtered: Source): (r: Source)
    ensures selection == AnySelection ==> r == all
    ensures selection != AnySelection ==> r == filtered
  {
    if selection == AnySelection then all else filtered
  }

  /** Choosing a group in the select asks the service for exactly that group
      and shows the filtered result; choosing 'any' asks for no filter and
      shows the full list. */
  lemma SelectionDecidesQuery(g: BloodGroup, all: Source, filtered: Source)
    ensures FilterArgument(Code(g)).Some?
    ensures ParseCode(FilterArgument(Code(g)).value) == Some(g)
    ensures Chosen(Code(g), all, filtered) == filtered
    ensures FilterArgument(AnySelection).None? && Chosen(AnySelection, all, filtered) == all
  {
  }

  const SingularSuffix: string := " donor found"
  const PluralSuffix: string := " donors found"

  /** The count badge: "1 donor found", otherwise "N donors found". The
      badge is the count's digits, which read back as the count, followed by
      the singular suffix for a count of one and the plural one otherwise. */
  function CountLabel(n: nat): (badge: string)
    ensures |Decimal(n)| < |badge|
    ensures badge[..|Decimal(n)|] == Decimal(n)
    ensures badge[|Decimal(n)|..] == if n == 1 then SingularSuffix else PluralSuffix
    ensures badge[|Decimal(n)|..] == SingularSuffix <==> n == 1
    ensures CountOf(badge) == n
  {
    var suffix := if n == 1 then SingularSuffix else PluralSuffix;
    assert suffix[0] == ' ';
    LeadingDigitsOf(Decimal(n), suffix);
    DecimalRoundTrip(n);
    Decimal(n) + suffix
  }

  /** The longest prefix of `s` made of decimal digits. */
  function LeadingDigits(s: string): (r: string)
    ensures |r| <= |s| && r == s[..|r|]
    ensures forall i :: 0 <= i < |r| ==> IsDigit(r[i])
    ensures |r| < |s| ==> !IsDigit(s[|r|])
    decreases |s|
  {
    if s != [] && IsDigit(s[0]) then [s[0]] + LeadingDigits(s[1..]) else []
  }

  /** Digits followed by a non-digit: the leading digits are exactly those. */
  lemma {:induction false} LeadingDigitsOf(digits: string, rest: string)
    requires forall i :: 0 <= i < |digits| ==> IsDigit(digits[i])
    requires rest == [] || !IsDigit(rest[0])
    ensures LeadingDigits(digits + rest) == digits
    decreases |digits|
  {
    if digits != [] {
      assert (digits + rest)[1..] == digits[1..] + rest;
      LeadingDigitsOf(digits[1..], rest);
    }
  }

  /** The count a badge text states: the number its leading digits denote. */
  function CountOf(badge: string): nat {
    DigitsValue(LeadingDigits(badge))
  }

  datatype Row = Row(name: string, groupLabel: string, phoneNumber: string)

  function RowOf(d: Donor): (r: Row)
    ensures r.name == d.name && r.groupLabel == GroupLabel(d.bloodGroup) && r.phoneNumber == d.phoneNumber
  {
    Row(d.name, LabelOf(Code(d.bloodGroup)), d.phoneNumber)
  }

  /** The result section: absent, or the count badge (present whenever the
      chosen list is defined, even while loading or when empty) above the
      list view. */
  datatype Section = Hidden | Shown(countBadge: Option<string>, body: ListViews.View<Row>)

  function Results(selection: string, all: Source, filtered: Source): (s: Section)
    ensures s.Hidden? <==> selection == []
    ensures s.Shown? ==> var src := Chosen(selection, all, filtered);
      && (s.countBadge.Some? <==> src.data.Some?)
      && (src.data.Some? ==> s.countBadge.value == CountLabel(|src.data.value|))
      && (s.body.Spinner? <==> src.isLoading)
      && (s.body.EmptyMessage? <==> !src.isLoading && (src.data.None? || src.data.value == []))
      && (s.body.Table? <==> !src.isLoading && src.data.Some? && src.data.value != [])
      && (s.body.Table? ==> |s.body.rows| == |src.data.value|)
      && (s.body.Table? ==> forall i :: 0 <= i < |s.body.rows| ==> s.body.rows[i] == RowOf(src.data.value[i]))
  {
    if selection == "" then Hidden
    else
      var src := Chosen(selection, all, filtered);
      var count := match src.data
        case None => None
        case Some(ds) => Some(CountLabel(|ds|));
      Shown(count, ListViews.Render(src.isLoading, src.data, RowOf))
  }

  /** `handleCall` on a result row selects the donor behind that row and
      opens the post-call dialog for them. */
  lemma CallFromResults(p: DonorTable.Page, selection: string, all: Source, filtered: Source, i: nat)
    requires selection != []
    requires !Chosen(selection, all, filtered).isLoading
    requires Chosen(selection, all, filtered).data.Some?
    requires i < |Chosen(selection, all, filtered).data.value|
    ensures Results(selection, all, filtered).body.Table?
    ensures var d := Chosen(selection, all, filtered).data.value[i];
      var row := Results(selection, all, filtered).body.rows[i];
      var r := DonorTable.HandleCall(p, d);
      && r.selected == Some(d) && r.dialog.open
      && row.name == d.name && row.phoneNumber == d.phoneNumber
  {
  }
}

=== FILE: donortable.dfy ===
/** The full donor table (`DonorTable`): one row per donor in the order
    received, with the blood-group label and a status badge, and a call
    action that selects the donor and opens the post-call dialog for them.
    Dialling the number is a browser side effect and is not modelled. */
module DonorTable {
  import opened Backend
  import opened Labels
  import ListViews
  import PostCall
  import Forms

  const ActiveBadge: string := "Active"
  const AppointedBadge: string := "Appointed"
  const TempRejectedBadge: string := "Temp. Rejected"
  const PermRejectedBadge: string := "Perm. Rejected"

  /** `getStatusBadge`: the badge text for each of the four variants. */
  function StatusBadge(s: DonorStatus): (r: string)
    ensures r == ActiveBadge <==> s.Active?
    ensures r == AppointedBadge <==> s.Appointed?
    ensures r == TempRejectedBadge <==> s.TemporarilyRejected?
    ensures r == PermRejectedBadge <==> s.PermanentlyRejected?
  {
    match s
    case Active => ActiveBadge
    case Appointed(_, _) => AppointedBadge
    case TemporarilyRejected(_) => TempRejectedBadge
    case PermanentlyRejected => PermRejectedBadge
  }

  /** The four badges are distinct: two statuses show the same badge exactly
      when they are the same variant, i.e. carry the same discriminator. */
  lemma StatusBadgeIdentifiesVariant(s: DonorStatus, t: DonorStatus)
    ensures StatusBadge(s) == StatusBadge(t) <==> SameVariant(s, t)
    ensures StatusBadge(s) == StatusBadge(t) <==> Tag(s) == Tag(t)
  {
  }

  datatype Row = Row(name: string, groupLabel: string, phoneNumber: string, statusBadge: string)

  function RowOf(d: Donor): (r: Row)
    ensures r.name == d.name && r.groupLabel == GroupLabel(d.bloodGroup) && r.phoneNumber == d.phoneNumber
    ensures r.statusBadge == StatusBadge(d.status)
  {
    Row(d.name, LabelOf(Code(d.bloodGroup)), d.phoneNumber, StatusBadge(d.status))
  }

  /** The table as shown: the loading check takes precedence over the empty
      check, and a non-empty list gives one row per donor in received order. */
  function View(isLoading: bool, data: Option<seq<Donor>>): (v: ListViews.View<Row>)
    ensures v.Spinner? <==> isLoading
    ensures v.EmptyMessage? <==> !isLoading && (data.None? || data.value == [])
    ensures v.Table? <==> !isLoading && data.Some? && data.value != []
    ensures v.Table? ==> |v.rows| == |data.value|
    ensures v.Table? ==> forall i :: 0 <= i < |v.rows| ==> v.rows[i] == RowOf(data.value[i])
  {
    ListViews.Render(isLoading, data, RowOf)
  }

  /** The page state around the table: the selected donor and the post-call
      dialog. The dialog is mounted only once a donor is selected, so before
      that its state is meaningless and the first call starts it afresh. */
  datatype Page = Page(selected: Option<Donor>, dialog: PostCall.Dialog)

  /** The page as first shown: nothing selected, no dialog open. */
  const InitialPage: Page := Page(None, PostCall.Dialog(false, PostCall.InitialForm))

  /** `handleCall`: select the donor and open the post-call dialog. The
      first call mounts the dialog with its initial fields; later calls keep
      the fields of the mounted dialog, whichever donor they were for. */
  function HandleCall(p: Page, d: Donor): (r: Page)
    ensures r.selected == Some(d) && r.dialog.open
    ensures p.selected.None? ==> r.dialog.form == PostCall.InitialForm
    ensures p.selected.Some? ==> r.dialog.form == p.dialog.form
  {
    match p.selected
    case None => Page(Some(d), PostCall.Dialog(true, PostCall.InitialForm))
    case Some(_) => Page(Some(d), p.dialog.(open := true))
  }

  /** The first call from the page opens a fresh form: submitting it at once
      is refused (an approval needs its date and patient name), so nothing
      is sent for the donor before the form is filled in. */
  lemma FirstCallOpensFreshForm(p: Page, d: Donor, millisOf: string -> int)
    requires p.selected.None?
    ensures var r := HandleCall(p, d);
      PostCall.Submit(r.dialog, d, millisOf).1 == Forms.Invalid(PostCall.MissingFieldsMessage)
  {
  }

  /** After a call, whatever the dialog sends concerns the donor just called. */
  lemma CallThenSubmitTargetsCalledDonor(p: Page, d: Donor, millisOf: string -> int)
    ensures var r := HandleCall(p, d);
      var o := PostCall.Submit(r.dialog, r.selected.value, millisOf).1;
      o.Send? ==> o.request.donorId == d.id
  {
  }

  /** The dialog keeps its state from one selected donor to the next:
      whatever was entered for the first donor, if the dialog is then closed
      without Cancel or a completed submission, is submitted for the next
      donor called. */
  lemma EntriesCarryOverToNextDonor(p: Page, d1: Donor, entered: PostCall.Form, d2: Donor, millisOf: string -> int)
    ensures var first := HandleCall(p, d1);
      var filled := first.(dialog := first.dialog.(form := entered));
      var second := HandleCall(filled.(dialog := PostCall.Dismiss(filled.dialog)), d2);
      && second.dialog.form == entered
      && PostCall.Submit(second.dialog, d2, millisOf).1
         == PostCall.Decide(d2, entered, millisOf)
  {
  }
}

=== FILE: editdonor.dfy ===
/** The edit-donor dialog (`EditDonorDialog`) up to the request it builds:
    opening reloads the fields from the donor; submitting refuses a name,
    then a phone number, that trims to nothing, and otherwise builds an edit
    request with the donor's identifier and the trimmed values. */
module EditDonor {
  import opened Backend
  import opened Forms
  import opened JsText

  datatype EditForm = EditForm(name: string, bloodGroup: BloodGroup, phoneNumber: string)

  /** The arguments of the edit call. */
  datatype EditRequest = EditRequest(id: int, name: string, bloodGroup: BloodGroup, phoneNumber: string)

  const MissingNameMessage: string := "Please enter a name"
  const MissingPhoneMessage: string := "Please enter a phone number"

  /** The fields as they stand for a donor's current record. */
  function FormOf(donor: Donor): (f: EditForm)
    ensures f.name == donor.name && f.bloodGroup == donor.bloodGroup
    ensures f.phoneNumber == donor.phoneNumber
  {
    EditForm(donor.name, donor.bloodGroup, donor.phoneNumber)
  }

  datatype Dialog = Dialog(open: bool, form: EditForm)

  /** The effect run when the open flag or the donor changes: an open dialog
      takes all three fields from the donor; a closed one keeps its own. */
  function Reload(d: Dialog, donor: Donor): (r: Dialog)
    ensures r.open == d.open
    ensures d.open ==> r.form == FormOf(donor)
    ensures !d.open ==> r == d
  {
    if d.open then d.(form := FormOf(donor)) else d
  }

  /** `handleSubmit`: a name that is all white space is refused first, then a
      phone number that is; otherwise one request carrying the donor's
      identifier, the selected group, and the name and phone number with
      surrounding white space removed. */
  function Validate(donor: Donor, f: EditForm): (o: Outcome<EditRequest>)
    ensures !o.Close?
    ensures o.Invalid? <==> AllWhitespace(f.name) || AllWhitespace(f.phoneNumber)
    ensures o.Invalid? ==> (o.message == MissingNameMessage <==> AllWhitespace(f.name))
    ensures o.Invalid? ==> (o.message == MissingNameMessage || o.message == MissingPhoneMessage)
    ensures o.Send? ==> o.request.id == donor.id && o.request.bloodGroup == f.bloodGroup
    ensures o.Send? ==> o.request.name != [] && Trimmed(o.request.name)
    ensures o.Send? ==> o.request.phoneNumber != [] && Trimmed(o.request.phoneNumber)
  {
    var name, phone := Trim(f.name), Trim(f.phoneNumber);
    if name == "" then Invalid(MissingNameMessage)
    else if phone == "" then Invalid(MissingPhoneMessage)
    else Send(EditRequest(donor.id, name, f.bloodGroup, phone))
  }

  /** What is sent is what was typed without its padding: a name or phone
      number entered with white space around it reaches the request as the
      text between. */
  lemma SendsTextBetweenPadding(donor: Donor, g: BloodGroup, p1: string, name: string, q1: string, p2: string, phone: string, q2: string)
    requires AllWhitespace(p1) && AllWhitespace(q1) && AllWhitespace(p2) && AllWhitespace(q2)
    requires name != [] && Trimmed(name) && phone != [] && Trimmed(phone)
    ensures Validate(donor, EditForm(p1 + name + q1, g, p2 + phone + q2))
         == Send(EditRequest(donor.id, name, g, phone))
  {
    TrimOfPadded(p1, name, q1);
    TrimOfPadded(p2, phone, q2);
  }

  /** Opening the dialog on a donor whose stored name and phone number are
      already trimmed and non-empty, and saving at once, sends the donor's
      current values back unchanged. */
  lemma ReopenAndSaveIsNoChange(d: Dialog, donor: Donor)
    requires d.open
    requires donor.name != [] && Trimmed(donor.name)
    requires donor.phoneNumber != [] && Trimmed(donor.phoneNumber)
    ensures Validate(donor, Reload(d, donor).form)
         == Send(EditRequest(donor.id, donor.name, donor.bloodGroup, donor.phoneNumber))
  {
  }

  /** The reply to the edit call: success closes the dialog and leaves the
      fields as they were; an error leaves the dialog as it was. */
  function Settle(d: Dialog, reply: Reply<()>): (r: Dialog)
    ensures r.form == d.form
    ensures r.open == (d.open && reply.Error?)
  {
    match reply
    case Ok(_) => d.(open := false)
    case Error(_) => d
  }
}

=== FILE: forms.dfy ===
/** What submitting one of the dialogs leads to: the dialog closes with no
    request, a validation message is shown and no request is issued, or
    exactly one request is sent to the service. */
module Forms {
  datatype Outcome<+Req> = Close | Invalid(message: string) | Send(request: Req)
}

=== FILE: jstext.dfy ===
/** The two pieces of JavaScript string behaviour the forms and lists rely
    on: `String.prototype.trim`, which strips the ECMAScript white-space and
    line-terminator characters from both ends, and the decimal rendering of a
    non-negative count. */
module JsText {

  /** ECMAScript WhiteSpace (TAB, VT, FF, SP, NBSP, ZWNBSP and every space
      separator) or LineTerminator (LF, CR, LS, PS). */
  predicate IsWhitespace(c: char) {
    var u := c as int;
    || (0x09 <= u <= 0x0D)
    || u == 0x20 || u == 0xA0 || u == 0x1680
    || (0x2000 <= u <= 0x200A)
    || u == 0x2028 || u == 0x2029 || u == 0x202F || u == 0x205F
    || u == 0x3000 || u == 0xFEFF
  }

  predicate AllWhitespace(s: string) {
    forall i :: 0 <= i < |s| ==> IsWhitespace(s[i])
  }

  /** Neither end of `m` is white space. */
  predicate Trimmed(m: string) {
    m == [] || (!IsWhitespace(m[0]) && !IsWhitespace(m[|m| - 1]))
  }

  /** `s` with its leading white space removed: a suffix of `s` that does not
      start with white space, and everything cut off is white space. */
  function TrimStart(s: string): (r: string)
    ensures |r| <= |s| && r == s[|s| - |r|..]
    ensures AllWhitespace(s[..|s| - |r|])
    ensures r == [] || !IsWhitespace(r[0])
    decreases |s|
  {
    if |s| > 0 && IsWhitespace(s[0]) then TrimStart(s[1..]) else s
  }

  /** `s` with its trailing white space removed: a prefix of `s` that does not
      end with white space, and everything cut off is white space. */
  function TrimEnd(s: string): (r: string)
    ensures |r| <= |s| && r == s[..|r|]
    ensures AllWhitespace(s[|r|..])
    ensures r == [] || !IsWhitespace(r[|r| - 1])
    decreases |s|
  {
    if |s| > 0 && IsWhitespace(s[|s| - 1]) then
      var r := TrimEnd(s[..|s| - 1]);
      assert AllWhitespace(s[|r|..]) by {
        forall i | 0 <= i < |s| - |r| ensures IsWhitespace(s[|r|..][i]) {
          if i < |s| - 1 - |r| { assert s[|r|..][i] == s[..|s| - 1][|r|..][i]; }
        }
      }
      r
    else s
  }

  /** `s.trim()`: empty exactly when `s` is all white space, otherwise the
      part of `s` between its leading and its trailing white space. */
  function Trim(s: string): (r: string)
    ensures Trimmed(r)
    ensures |r| <= |s|
    ensures r == [] <==> AllWhitespace(s)
  {
    var t := TrimStart(s);
    var r := TrimEnd(t);
    assert t == [] ==> AllWhitespace(s) by {
      if t == [] {
        assert s[..|s|] == s;
      }
    }
    assert t != [] ==> !AllWhitespace(s) by {
      if t != [] {
        assert s[|s| - |t|] == t[0];
      }
    }
    r
  }

  /** Leading white space in front of a string that does not start with white
      space is exactly what `TrimStart` removes. */
  lemma {:induction false} TrimStartSkips(p: string, rest: string)
    requires AllWhitespace(p)
    requires rest == [] || !IsWhitespace(rest[0])
    ensures TrimStart(p + rest) == rest
    decreases |p|
  {
    if p != [] {
      assert (p + rest)[1..] == p[1..] + rest;
      TrimStartSkips(p[1..], rest);
    }
  }

  /** Trailing white space behind a string that does not end with white space
      is exactly what `TrimEnd` removes. */
  lemma {:induction false} TrimEndSkips(rest: string, q: string)
    requires AllWhitespace(q)
    requires rest == [] || !IsWhitespace(rest[|rest| - 1])
    ensures TrimEnd(rest + q) == rest
    decreases |q|
  {
    if q != [] {
      assert (rest + q)[..|rest + q| - 1] == rest + q[..|q| - 1];
      TrimEndSkips(rest, q[..|q| - 1]);
    } else {
      assert rest + q == rest;
    }
  }

  /** `trim` characterised without reference to how it is computed: for any
      split of a string into white space, a part with no white space at
      either end, and white space, the trimmed string is that middle part. */
  lemma TrimOfPadded(p: string, m: string, q: string)
    requires AllWhitespace(p) && AllWhitespace(q) && Trimmed(m)
    ensures Trim(p + m + q) == m
  {
    if m == [] {
      assert p + m + q == p + q;
      assert AllWhitespace(p + q) by {
        forall i | 0 <= i < |p + q| ensures IsWhitespace((p + q)[i]) {
          if i < |p| { assert (p + q)[i] == p[i]; } else { assert (p + q)[i] == q[i - |p|]; }
        }
      }
    } else {
      assert p + m + q == p + (m + q);
      TrimStartSkips(p, m + q);
      TrimEndSkips(m, q);
    }
  }

  /** Trimming twice trims no more than trimming once. */
  lemma TrimIdempotent(s: string)
    ensures Trim(Trim(s)) == Trim(s)
  {
  }

  function DigitChar(d: nat): (c: char)
    requires d < 10
  {
    ('0' as int + d) as char
  }

  predicate IsDigit(c: char) {
    '0' as int <= c as int <= '9' as int
  }

  /** The decimal rendering of a non-negative integer, as interpolating a
      number into text produces it: digits only, no leading zero. */
  function Decimal(n: nat): (r: string)
    ensures |r| >= 1
    ensures forall i :: 0 <= i < |r| ==> IsDigit(r[i])
    ensures |r| > 1 ==> r[0] != '0'
    decreases n
  {
    if n < 10 then [DigitChar(n)] else Decimal(n / 10) + [DigitChar(n % 10)]
  }

  /** The number a string of decimal digits denotes. */
  function DigitsValue(s: string): nat
    requires forall i :: 0 <= i < |s| ==> IsDigit(s[i])
    decreases |s|
  {
    if s == [] then 0
    else
      assert IsDigit(s[|s| - 1]);
      DigitsValue(s[..|s| - 1]) * 10 + (s[|s| - 1] as int - '0' as int)
  }

  /** Reading the rendering back gives the number: the rendering is faithful,
      and different counts render differently. */
  lemma {:induction false} DecimalRoundTrip(n: nat)
    ensures DigitsValue(Decimal(n)) == n
    decreases n
  {
    if n >= 10 {
      var r := Decimal(n);
      assert r[..|r| - 1] == Decimal(n / 10);
      DecimalRoundTrip(n / 10);
    }
  }
}

=== FILE: labels.dfy ===
/** The blood-group label every donor table shows (`getBloodGroupLabel`):
    a lookup in a table from the eight codes to "A+" ... "O-", falling back to
    the input string itself when the lookup finds nothing. The same table is
    repeated in each list component; here it is defined once. */
module Labels {
  import opened Backend

  function RhSign(rh: Rh): string {
    match rh
    case Pos => "+"
    case Neg => "-"
  }

  /** The label of a group: its ABO name (spelled as in its code) followed
      by its Rhesus sign. */
  function GroupLabel(g: BloodGroup): string {
    AboCode(AboOf(g)) + RhSign(RhOf(g))
  }

  /** The lookup table as the components write it. */
  const LabelTable: map<string, string> := map[
    "A_pos" := "A+", "A_neg" := "A-",
    "B_pos" := "B+", "B_neg" := "B-",
    "AB_pos" := "AB+", "AB_neg" := "AB-",
    "O_pos" := "O+", "O_neg" := "O-"
  ]

  /** `mapping[bg] || bg`: the table entry when there is a non-empty one,
      otherwise the input unchanged. Total: each of the eight codes gets its
      group's label, and any other string comes back as it was. */
  function LabelOf(s: string): (r: string)
    ensures forall g :: s == Code(g) ==> r == GroupLabel(g)
    ensures ParseCode(s).None? ==> r == s
  {
    if s in LabelTable && LabelTable[s] != "" then LabelTable[s] else s
  }

  /** Different groups get different labels, and a label names its group's
      ABO group and Rhesus sign. */
  lemma GroupLabelInjective(g: BloodGroup, h: BloodGroup)
    ensures GroupLabel(g) == GroupLabel(h) <==> g == h
  {
    if GroupLabel(g) == GroupLabel(h) {
      var lg, lh := GroupLabel(g), GroupLabel(h);
      assert lg[|lg| - 1] == lh[|lh| - 1];
      assert RhOf(g) == RhOf(h);
      assert lg[..|lg| - 1] == AboCode(AboOf(g));
      assert lh[..|lh| - 1] == AboCode(AboOf(h));
      assert AboOf(g) == AboOf(h);
      GroupIsAboTimesRh(g, h);
    }
  }
}

=== FILE: listviews.dfy ===
/** The shape every donor list renders: a spinner while its query is loading,
    the empty message when the fetched list is absent or empty, and otherwise
    a table with one row per donor, in the order the service returned them
    (no list is sorted on the client). */
module ListViews {
  import opened Backend

  datatype View<+R> = Spinner | EmptyMessage | Table(rows: seq<R>)

  /** `donors.map(row)`: one row per donor, in order. */
  function MapRows<R>(ds: seq<Donor>, row: Donor -> R): (rows: seq<R>)
    ensures |rows| == |ds|
    ensures forall i :: 0 <= i < |ds| ==> rows[i] == row(ds[i])
    decreases |ds|
  {
    if ds == [] then [] else [row(ds[0])] + MapRows(ds[1..], row)
  }

  /** `isLoading` is checked first, then `!donors || donors.length === 0`;
      only a non-empty list reaches the table. */
  function Render<R>(isLoading: bool, data: Option<seq<Donor>>, row: Donor -> R): (v: View<R>)
    ensures v.Spinner? <==> isLoading
    ensures v.EmptyMessage? <==> !isLoading && (data.None? || data.value == [])
    ensures v.Table? <==> !isLoading && data.Some? && data.value != []
    ensures v.Table? ==> |v.rows| == |data.value|
    ensures v.Table? ==> forall i :: 0 <= i < |v.rows| ==> v.rows[i] == row(data.value[i])
  {
    if isLoading then Spinner
    else match data
      case None => EmptyMessage
      case Some(ds) => if ds == [] then EmptyMessage else Table(MapRows(ds, row))
  }

  /** Rendering commutes with concatenation: the rows of two lists shown
      together are the rows of the first followed by the rows of the second,
      so no row moves relative to the others. */
  lemma {:induction false} MapRowsAppend<R>(a: seq<Donor>, b: seq<Donor>, row: Donor -> R)
    ensures MapRows(a + b, row) == MapRows(a, row) + MapRows(b, row)
  {
  }
}

=== FILE: postcall.dfy ===
/** The post-call dialog (`PostCallForm`): after calling a donor the user
    records the response, and submitting maps the form to exactly one of
    three outcomes: close with no request (`notAttend`), a validation
    message, or one `updateDonorStatus` request carrying exactly one status
    variant. Dates entered in the form are read as milliseconds by
    `millisOf` (date parsing is not modelled) and sent as nanoseconds. */
module PostCall {
  import opened Backend
  import opened Timestamps
  import opened Forms

  datatype Response = Approved | Rejected | NotAttend

  datatype Rejection = Temporary | Permanent

  /** The form state: response, rejection type and the three text fields. */
  datatype Form = Form(
    response: Response,
    rejection: Rejection,
    appointmentDate: string,
    patientName: string,
    availableDate: string)

  /** The state the form starts in and `resetForm` restores. */
  const InitialForm: Form := Form(Approved, Temporary, "", "", "")

  /** The arguments of `updateDonorStatus`. */
  datatype StatusRequest = StatusRequest(donorId: int, newStatus: DonorStatus)

  const MissingFieldsMessage: string := "Please fill in all required fields"
  const MissingDateMessage: string := "Please select an available date"

  /** The text fields of the form. */
  datatype Field = AppointmentDate | PatientName | AvailableDate

  function Value(f: Form, field: Field): string {
    match field
    case AppointmentDate => f.appointmentDate
    case PatientName => f.patientName
    case AvailableDate => f.availableDate
  }

  /** The fields a response needs: both appointment fields for an approval,
      the available date for a temporary rejection, none otherwise. */
  function Required(f: Form): set<Field> {
    match f.response
    case Approved => {AppointmentDate, PatientName}
    case Rejected => if f.rejection == Temporary then {AvailableDate} else {}
    case NotAttend => {}
  }

  /** The required fields left empty. */
  function Missing(f: Form): set<Field> {
    set field | field in Required(f) && Value(f, field) == ""
  }

  /** `handleSubmit`: `notAttend` closes whatever the fields hold; a response
      with a required field left empty is refused with a message; otherwise
      exactly one request is built for the donor, from the required fields
      only, with dates converted from milliseconds to nanoseconds. */
  function Decide(donor: Donor, f: Form, millisOf: string -> int): (o: Outcome<StatusRequest>)
    ensures o.Close? <==> f.response == NotAttend
    ensures o.Invalid? <==> f.response != NotAttend && Missing(f) != {}
    ensures o.Invalid? && f.response == Approved ==> o.message == MissingFieldsMessage
    ensures o.Invalid? && f.response == Rejected ==> o.message == MissingDateMessage
    ensures o.Send? ==> o.request.donorId == donor.id
    ensures o.Send? && f.response == Approved ==>
      o.request.newStatus == Appointed(MillisToNanos(millisOf(f.appointmentDate)), f.patientName)
    ensures o.Send? && f.response == Rejected && f.rejection == Temporary ==>
      o.request.newStatus == TemporarilyRejected(MillisToNanos(millisOf(f.availableDate)))
    ensures o.Send? && f.response == Rejected && f.rejection == Permanent ==>
      o.request.newStatus == PermanentlyRejected
  {
    match f.response
    case NotAttend => Close
    case Approved =>
      if f.appointmentDate == "" || f.patientName == "" then
        var empty := if f.appointmentDate == "" then AppointmentDate else PatientName;
        assert empty in Missing(f);
        Invalid(MissingFieldsMessage)
      else
        var status := Appointed(MillisToNanos(millisOf(f.appointmentDate)), f.patientName);
        Send(StatusRequest(donor.id, status))
    case Rejected =>
      if f.rejection == Temporary then
        if f.availableDate == "" then
          assert AvailableDate in Missing(f);
          Invalid(MissingDateMessage)
        else
          var status := TemporarilyRejected(MillisToNanos(millisOf(f.availableDate)));
          Send(StatusRequest(donor.id, status))
      else
        Send(StatusRequest(donor.id, PermanentlyRejected))
  }

  /** The outcome depends only on the response, the rejection type when the
      response is a rejection, and the fields that response requires: every
      other field is ignored. */
  lemma OnlyRequiredFieldsMatter(donor: Donor, f: Form, g: Form, millisOf: string -> int)
    requires f.response == g.response
    requires f.response == Rejected ==> f.rejection == g.rejection
    requires forall field :: field in Required(f) ==> Value(f, field) == Value(g, field)
    ensures Decide(donor, f, millisOf) == Decide(donor, g, millisOf)
  {
    match f.response
    case NotAttend =>
    case Approved =>
      assert Value(f, AppointmentDate) == Value(g, AppointmentDate);
      assert Value(f, PatientName) == Value(g, PatientName);
    case Rejected =>
      if f.rejection == Temporary {
        assert Value(f, AvailableDate) == Value(g, AvailableDate);
      }
  }

  /** The status a request sets is the variant the response aims at, and the
      dates it carries are the entered instants: shown again in
      milliseconds they read back exactly as entered. */
  lemma RequestMatchesResponse(donor: Donor, f: Form, millisOf: string -> int)
    requires Decide(donor, f, millisOf).Send?
    ensures var s := Decide(donor, f, millisOf).request.newStatus;
      && (s.Appointed? <==> f.response == Approved)
      && (s.TemporarilyRejected? <==> f.response == Rejected && f.rejection == Temporary)
      && (s.PermanentlyRejected? <==> f.response == Rejected && f.rejection == Permanent)
      && !s.Active?
      && (s.Appointed? ==> NanosToMillis(s.appointmentDate) == millisOf(f.appointmentDate))
      && (s.TemporarilyRejected? ==> NanosToMillis(s.availableDate) == millisOf(f.availableDate))
  {
  }

  /** The dialog: whether it is open, and the form it holds. */
  datatype Dialog = Dialog(open: bool, form: Form)

  /** `resetForm`: every field back to its initial value; the open flag is
      left to the caller. */
  function Reset(d: Dialog): (r: Dialog)
    ensures r.open == d.open
    ensures r.form.response == Approved && r.form.rejection == Temporary
    ensures Value(r.form, AppointmentDate) == "" && Value(r.form, PatientName) == ""
    ensures Value(r.form, AvailableDate) == ""
  {
    d.(form := InitialForm)
  }

  /** The Cancel button: closes the dialog and resets the form. */
  function Cancel(d: Dialog): (r: Dialog)
    ensures !r.open && r.form == InitialForm
  {
    Reset(d).(open := false)
  }

  /** Closing through the dialog's own close control: only the open flag
      changes, so the entries survive until the form is next reset. */
  function Dismiss(d: Dialog): (r: Dialog)
    ensures !r.open && r.form == d.form
  {
    d.(open := false)
  }

  /** Submitting: `notAttend` closes and resets the dialog; a refused form and
      a form whose request is in flight stay as they are. */
  function Submit(d: Dialog, donor: Donor, millisOf: string -> int): (r: (Dialog, Outcome<StatusRequest>))
    ensures r.1 == Decide(donor, d.form, millisOf)
    ensures r.1.Close? ==> !r.0.open && r.0.form == InitialForm
    ensures !r.1.Close? ==> r.0 == d
  {
    var o := Decide(donor, d.form, millisOf);
    if o.Close? then (Reset(d).(open := false), o) else (d, o)
  }

  /** The service's reply to the request (a failed call, whatever its cause,
      arrives as an error): success closes and resets the dialog; failure
      leaves it open with every field as it was. */
  function Settle(d: Dialog, reply: Reply<()>): (r: Dialog)
    ensures reply.Ok? ==> !r.open && r.form == InitialForm
    ensures reply.Error? ==> r == d
  {
    match reply
    case Ok(_) => Reset(d).(open := false)
    case Error(_) => d
  }

  /** A failed request can be retried as it was: submitting the preserved
      form again sends the very same request. */
  lemma RetryAfterFailure(d: Dialog, donor: Donor, millisOf: string -> int, err: string)
    requires Submit(d, donor, millisOf).1.Send?
    ensures var d' := Settle(Submit(d, donor, millisOf).0, Error(err));
      Submit(d', donor, millisOf) == Submit(d, donor, millisOf)
  {
  }

  /** After a successful update the form is fresh: submitting it untouched is
      refused (the approval fields are empty) and sends nothing. */
  lemma SuccessLeavesFreshForm(d: Dialog, donor: Donor, millisOf: string -> int)
    ensures var d' := Settle(d, Ok(()));
      Submit(d', donor, millisOf).1 == Invalid(MissingFieldsMessage)
  {
  }
}

=== FILE: temprejected.dfy ===
/** The temporarily-rejected list (`TempRejectedDonorsList`): each row shows
    the donor's available date and one badge, "Donated" when that date lies
    85 to 95 whole days (rounded up) after the current time, which the list
    takes as a sign of a post-donation rest period, and "Rejected" otherwise.
    The current time `nowMs` (milliseconds) is a parameter, one value for
    the whole list. */
module TempRejected {
  import opened Backend
  import opened Timestamps
  import opened Labels
  import ListViews
  import PostCall

  const WindowFirstDay: int := 85
  const WindowLastDay: int := 95

  const DonatedBadge: string := "Donated"
  const RejectedBadge: string := "Rejected"

  /** The available date of a row: the payload of a `temporarilyRejected`
      status, and 0 for any other status. */
  function AvailableDateOf(s: DonorStatus): (t: Time)
    ensures s.TemporarilyRejected? ==> t == s.availableDate
    ensures !s.TemporarilyRejected? ==> t == 0
  {
    match s
    case TemporarilyRejected(date) => date
    case _ => 0
  }

  /** `isDonatedStatus`: the whole days until the date, rounded up, lie in
      the inclusive window 85..95. In milliseconds, that is exactly a date
      more than 84 days and at most 95 days after now. */
  function IsDonated(availableDate: Time, nowMs: int): (r: bool)
    ensures r <==> 84 * MillisPerDay < NanosToMillis(availableDate) - nowMs <= 95 * MillisPerDay
  {
    WindowFirstDay <= DaysUntil(NanosToMillis(availableDate), nowMs) <= WindowLastDay
  }

  /** A date that is not after now is never "Donated"; neither is the 0
      fallback, for any time after the epoch. */
  lemma PastIsNeverDonated(availableDate: Time, nowMs: int)
    ensures NanosToMillis(availableDate) <= nowMs ==> !IsDonated(availableDate, nowMs)
    ensures nowMs >= 0 ==> !IsDonated(0, nowMs)
  {
  }

  datatype Row = Row(name: string, groupLabel: string, phoneNumber: string, availableMillis: int, badge: string)

  /** One row: the date shown is the available date in milliseconds, and the
      badge is exactly one of the two, "Donated" precisely when the date is in
      the window. */
  function RowOf(nowMs: int, d: Donor): (r: Row)
    ensures r.name == d.name && r.groupLabel == GroupLabel(d.bloodGroup) && r.phoneNumber == d.phoneNumber
    ensures r.availableMillis == NanosToMillis(AvailableDateOf(d.status))
    ensures r.badge == DonatedBadge <==> IsDonated(AvailableDateOf(d.status), nowMs)
    ensures r.badge == DonatedBadge || r.badge == RejectedBadge
  {
    var date := AvailableDateOf(d.status);
    Row(d.name, LabelOf(Code(d.bloodGroup)), d.phoneNumber, NanosToMillis(date),
        if IsDonated(date, nowMs) then DonatedBadge else RejectedBadge)
  }

  /** The list as shown: loading first, then the empty message for an absent
      or empty list, otherwise one row per donor in the order received. */
  function View(isLoading: bool, data: Option<seq<Donor>>, nowMs: int): (v: ListViews.View<Row>)
    ensures v.Spinner? <==> isLoading
    ensures v.EmptyMessage? <==> !isLoading && (data.None? || data.value == [])
    ensures v.Table? <==> !isLoading && data.Some? && data.value != []
    ensures v.Table? ==> |v.rows| == |data.value|
    ensures v.Table? ==> forall i :: 0 <= i < |v.rows| ==> v.rows[i] == RowOf(nowMs, data.value[i])
  {
    ListViews.Render(isLoading, data, d => RowOf(nowMs, d))
  }

  /** A temporary rejection recorded in the post-call form shows up with the
      instant the entered date parsed to, and its badge follows the window
      measured from that instant. */
  lemma TemporaryRejectionRow(donor: Donor, f: PostCall.Form, millisOf: string -> int, nowMs: int)
    requires f.response == PostCall.Rejected && f.rejection == PostCall.Temporary
    requires f.availableDate != []
    ensures var o := PostCall.Decide(donor, f, millisOf);
      && o.Send?
      && var r := RowOf(nowMs, donor.(status := o.request.newStatus));
      && r.availableMillis == millisOf(f.availableDate)
      && (r.badge == DonatedBadge
          <==> 84 * MillisPerDay < millisOf(f.availableDate) - nowMs <= 95 * MillisPerDay)
  {
  }
}

=== FILE: timestamps.dfy ===
/** Conversions between the service's nanosecond timestamps and the
    millisecond values the browser's dates use, and the whole-day difference
    the temporarily-rejected list computes. Double arithmetic is replaced by
    exact integer arithmetic: `new Date(x)` keeps the integer part of `x`,
    so dividing and then building a date is division rounding toward zero; `Math.ceil(x / d)` is ceiling division. */
module Timestamps {
  import opened Backend

  const NanosPerMilli: int := 1_000_000

  /** `1000 * 60 * 60 * 24` */
  const MillisPerDay: int := 86_400_000

  /** Division rounding up, as `Math.ceil(n / d)`. */
  function CeilDiv(n: int, d: int): (q: int)
    requires d > 0
    ensures (q - 1) * d < n <= q * d
  {
    -((-n) / d)
  }

  /** The millisecond instant a nanosecond timestamp is displayed as:
      `new Date(Number(ns) / 1_000_000)`. */
  function NanosToMillis(ns: Time): (ms: int)
    ensures ns >= 0 ==> 0 <= ms && ms * NanosPerMilli <= ns < ms * NanosPerMilli + NanosPerMilli
    ensures ns < 0 ==> ms <= 0 && ms * NanosPerMilli - NanosPerMilli < ns <= ms * NanosPerMilli
  {
    if ns >= 0 then ns / NanosPerMilli else -((-ns) / NanosPerMilli)
  }

  /** The timestamp a form sends for a millisecond instant:
      `BigInt(ms * 1_000_000)`. Displaying it gives the instant back. */
  function MillisToNanos(ms: int): (ns: Time)
    ensures NanosToMillis(ns) == ms
    ensures ns % NanosPerMilli == 0
  {
    ms * NanosPerMilli
  }

  /** Display then re-encoding gives back exactly the timestamps that hold a
      whole number of milliseconds, and no others. */
  lemma EncodeAfterDisplay(ns: Time)
    ensures MillisToNanos(NanosToMillis(ns)) == ns <==> ns % NanosPerMilli == 0
  {
  }

  /** Whole days from `nowMs` to `ms`, rounded up:
      `Math.ceil((date - now) / (1000 * 60 * 60 * 24))`. */
  function DaysUntil(ms: int, nowMs: int): (days: int)
    ensures (days - 1) * MillisPerDay < ms - nowMs <= days * MillisPerDay
  {
    CeilDiv(ms - nowMs, MillisPerDay)
  }
}
